=== FILE: README.md ===
# Eternal Draft postcard mailer — Dafny model

Eternal Draft scans a `postcards` directory for files named
`<recipient>_<years>.<extension>` and, for every file whose `<years>` equals
the number of calendar years between the burn date (1 May 2023) and now,
mails the file to the recipient. This project models the pure decision logic
of `main.go`:

- the filename parser `parseEmailPayload` (module `Payload`), built on models
  of Go's `strings.Split` with a one-character separator (module `Strings`)
  and of `strconv.Atoi` on a 64-bit platform (module `Strconv`);
- the date gate `CalculateDateDiff` (module `DateGate`), with the clock
  injected as a `Date`;
- the loop of `listPostcards` (module `Listing`), with the directory listing
  as a sequence of `(name, isDir)` entries; index bookkeeping for "the
  survivors, in order" lives in module `Subsequence`;
- the selection loop of `main` and the whole run (module `Orchestrator`),
  with sending abstracted as an injected function from payload to outcome;
- a few whole-run scenarios (module `Scenarios`).

The parser follows the code rather than the intended file-name format:

- a name must hold exactly one `_`, so an address containing `_` is rejected;
- the text after `_` must hold exactly one `.`, so `x.tar.gz` is rejected,
  while an empty offset or an empty extension still passes the split;
- the offset is whatever `Atoi` accepts: an optional `+` or `-`, then one or
  more ASCII digits, within the signed 64-bit range. So `-1` and `+3` are
  accepted, and so are leading zeros. `Atoi` reads left to right and
  reports the first problem it meets: `99999999999999999999x` is a range
  error, because the twentieth digit overflows before the `x` is read.

The attachment path is `dirPath + filename` with no separator between the
two. `main` builds `dirPath` with `filepath.Join(cwd, "postcards")`, which
has no trailing separator. The stored path therefore names
`<cwd>/postcards<filename>` rather than a file inside the directory. The model
keeps the concatenation exactly as written.

## Model

| member | source | states |
|---|---|---|
| Strings.Split | main.go:62-68 | `strings.Split` on one character: one more piece than separators, no piece holds the separator, joining the pieces with it gives the input back |
| Strings.SplitAtFirst | main.go:62 | splitting `a + sep + b` with no separator in `a` gives `a` followed by the pieces of `b` |
| Strings.SplitJoin | main.go:62-71 | splitting undoes joining when no piece holds the separator |
| Strconv.ScanDigits | main.go:73 | the left-to-right digit scan succeeds only on digits, with their decimal value, inside the unsigned 64-bit range |
| Strconv.Atoi | main.go:73-76 | an accepted offset fits in a 64-bit `int`, the empty text is a syntax error, accepted text is digits after an optional sign, and its value is the decimal value of those digits, negated after `-` |
| Strconv.AtoiDecimal | main.go:73 | round trip: the decimal rendering of any natural up to the largest `int` reads back as that natural |
| Strconv.AtoiPlusDecimal | main.go:73 | a leading `+` is accepted and does not change the value |
| Strconv.AtoiMinusDecimal | main.go:73 | a leading `-` is accepted and negates, down to the smallest `int` |
| Strconv.AtoiOverflow | main.go:73-76 | a value beyond the largest `int` is a range error, never a wrapped value |
| Strconv.AtoiAcceptsDigits | main.go:73-76 | every optional sign followed by digits in range is accepted with their decimal value, leading zeros included |
| Strconv.AtoiLoneSign | main.go:73-76 | a sign with no digits after it is rejected |
| Strconv.AtoiNonDigit | main.go:73-76 | the first non-digit after the optional sign is a syntax error when the digits before it are within the unsigned 64-bit range |
| Strconv.AtoiOverflowBeforeNonDigit | main.go:73-76 | digits after the optional sign whose value exceeds the unsigned 64-bit range are a range error, whatever follows them |
| Strconv.AtoiOverflowThenAnything | main.go:73-76 | an unsigned or negative rendered natural past `2^64-1` followed by any text, a letter included, is a range error |
| Payload.ParseEmailPayload | main.go:61-87 | a name without exactly one `_` fails as malformed; every error carries the filename; a success has the fixed subject and body, attachment path `dirPath + filename` and an offset inside the 64-bit range |
| Payload.SplitShaped | main.go:62-71 | the two splits of a well-shaped name yield exactly its address, offset text and extension |
| Payload.ParseShaped | main.go:61-87 | on a well-shaped name the outcome is decided by `Atoi` alone: success with the text before `_` as recipient and the parsed offset, or the offsets error |
| Payload.ParseSuccessIsShaped | main.go:62-84 | every accepted name is `to + "_" + years + "." + ext` with no stray separators, and `years` parses to the stored offset |
| Payload.ParseRejectsDotCount | main.go:68-71 | a name whose text after `_` holds zero or several `.` is rejected as malformed |
| Payload.ParseRejectsUnderscoreInAddress | main.go:62-65 | an address containing `_` makes the name unparseable |
| Payload.ParseRejectsDottedExtension | main.go:68-71 | an extension containing `.` makes the name unparseable |
| Payload.ParseRoundTrip | main.go:61-87 | `addr + "_" + decimal(n) + "." + ext` parses back to `addr` and `n` when `addr` has no `_` and `ext` no `_` or `.` |
| Payload.ParseAcceptsNegativeOffset | main.go:73-84 | a name with a `-n` offset is accepted with offset `-n` |
| Payload.ParseAcceptsPlusOffset | main.go:73-84 | a name with a `+n` offset is accepted with offset `n` |
| Payload.ParseAcceptsDigits | main.go:61-87 | a name whose offset is any sign and digit text in range, leading zeros included, parses with the digits' decimal value as its offset |
| DateGate.CalculateDateDiff | main.go:49-58 | due exactly in calendar year `2023 + yearsAway`; no error when due; otherwise the not-years-away error with the payload's offset |
| DateGate.GateIgnoresMonthAndDay | main.go:50-53 | two dates in the same calendar year get the same answer |
| DateGate.DueInExactlyOneYear | main.go:50-58 | a due payload is due in exactly one calendar year, and in all of it |
| Listing.ListPostcards | main.go:98-111 | the loop produces the reference listing and warnings, and each file entry yields either one payload or one warning |
| Listing.PayloadsLength | main.go:98-111 | no more payloads than entries |
| Listing.PayloadsAppend | main.go:98-107 | listing a concatenation is the concatenation of the listings, so a skipped entry never stops the loop |
| Listing.ListOne | main.go:99-107 | a single entry yields its payload if it is a file that parses, and a warning if it is a file that does not |
| Listing.DroppedEntryIsInvisible | main.go:99-106 | a directory or an unparseable name, wherever it stands, leaves the listing unchanged |
| Listing.OriginsMatch | main.go:98-107 | the `k`-th payload is the parse of a kept entry, one entry per payload |
| Listing.OriginsIncreasing | main.go:98-107 | payloads keep the relative order of their entries |
| Listing.OriginsComplete | main.go:98-107 | every file entry whose name parses contributes a payload |
| Listing.PayloadsSound | main.go:99-107 | every payload is the successful parse of some non-directory entry |
| Orchestrator.Orchestrate | main.go:200-212 | one step per payload, in order; a send is attempted iff the payload is due this year, with the send's own outcome; otherwise the step records the not-due error |
| Orchestrator.DuePayloadsMembers | main.go:200-206 | a payload is selected iff it was listed and is due this year |
| Orchestrator.AttemptsAreDuePayloads | main.go:200-212 | the attempted payloads are exactly the due payloads, in listed order |
| Orchestrator.OutcomesDoNotSteerAttempts | main.go:206-211 | the attempted payloads do not depend on how any send turned out |
| Orchestrator.OrchestrateAppend | main.go:200-212 | processing a concatenation processes each part independently, so a failed send never suppresses later ones |
| Orchestrator.Run | main.go:193-212 | a run aborts iff the directory cannot be read; a completed run logs the listing's warnings and takes one step per listed payload |
| Orchestrator.RunAttemptsDuePostcards | main.go:194-212 | a completed run attempts exactly the due payloads among the parseable files, in order |
| Scenarios.OneDuePostcard | main.go:194-212 | `bob@x.com_3.png` in 2026 gives exactly one attempt, to `bob@x.com` with offset 3, and no warning |
| Scenarios.BadNameIsOnlyWarned | main.go:98-106 | `bad filename.png` gives no steps and one malformed-name warning, and the run completes |
| Scenarios.OneDueOneNotSteps | main.go:200-212 | of a due and a not-due payload, only the first is attempted and the second is logged as not due |
| Scenarios.UnreadableDirectoryAborts | main.go:194-198 | an unreadable postcard directory aborts the run |

## Left out

- SMTP transport (`smtp.PlainAuth`, `smtp.SendMail`) is network I/O. A send is an injected function from payload to an outcome that may fail.
- MIME composition and base64 encoding are thin calls into Go's `mime/multipart` and `encoding/base64`. The multipart writer uses a random boundary, and neither library is part of this model.
- Reading the attachment with `os.ReadFile` is file I/O. Its failure is one of the abstract send failures.
- `os.ReadDir` is file I/O. Its result is an input: a listing, or an error that aborts the run.
- `os.Getwd` and `filepath.Join` are left out. The postcard directory path is a parameter.
- Environment-variable loading, `SMTPSettings`, `NewMailer` and the port constant only feed the transport, so they are left out with it.
- `time.Now()` is replaced by an injected `Date`. Which time zone Go uses for `Year()` is left to whoever supplies the date.
- Logging and printing are left out. Log lines appear only as the `Warning` and `NotDue` values the model records.
- A `panic` is modelled as the `Aborted` result.
- Error message texts are left out. The parser's and the date gate's errors are constructors carrying the values their messages format. The directory-read and send errors keep only their kind: the five send errors become three causes, and the wrapped Go error is dropped.
- Strconv.Atoi: models the 64-bit `int` only; on a 32-bit platform the accepted range would be `[-2^31, 2^31-1]`.
- Strings are sequences of characters, not bytes. The separators `_` and `.` and the digits are ASCII, so on names that are valid UTF-8 splitting and digit checks agree with Go's byte-level behaviour. A file name that is not valid UTF-8 cannot be written as a Dafny `string` and falls outside the model.

=== FILE: dategate.dfy ===
/**
 * The date gate `CalculateDateDiff`. The clock is injected as `now`; the
 * gate subtracts the burn date's calendar year from `now`'s and compares the
 * difference with the payload's offset, so month and day play no part.
 */
module DateGate {
  import opened Wrappers
  import opened Payload

  datatype Date = Date(year: int, month: int, day: int)

  /** 1 May 2023, midnight UTC: the anchor every offset counts from. */
  const BurnDate: Date := Date(2023, 5, 1)

  /** "current date is not N years away from the set date" */
  datatype DateError = NotYearsAway(yearsAway: int)

  /** Go's `(bool, error)` pair. */
  datatype DateDiff = DateDiff(due: bool, err: Option<DateError>)

  /** The calendar year in which a payload is due. */
  function DueYear(payload: EmailPayload): int {
    BurnDate.year + payload.yearsAway
  }

  function CalculateDateDiff(now: Date, payload: EmailPayload): (r: DateDiff)
    ensures r.due <==> now.year == DueYear(payload)
    ensures r.due <==> r.err == None
    ensures !r.due ==> r.err == Some(NotYearsAway(payload.yearsAway))
  {
    var yearsDiff := now.year - BurnDate.year;
    if yearsDiff != payload.yearsAway then
      DateDiff(false, Some(NotYearsAway(payload.yearsAway)))
    else
      DateDiff(true, None)
  }

  /** Only the year of `now` matters: two dates in one calendar year give the same answer. */
  lemma GateIgnoresMonthAndDay(now1: Date, now2: Date, payload: EmailPayload)
    requires now1.year == now2.year
    ensures CalculateDateDiff(now1, payload) == CalculateDateDiff(now2, payload)
  {
  }

  /** A payload is due during exactly one calendar year, `2023 + yearsAway`, for the whole of it. */
  lemma DueInExactlyOneYear(payload: EmailPayload, now1: Date, now2: Date)
    requires CalculateDateDiff(now1, payload).due
    ensures now1.year == BurnDate.year + payload.yearsAway
    ensures CalculateDateDiff(now2, payload).due <==> now2.year == now1.year
  {
  }
}

=== FILE: listing.dfy ===
/**
 * The loop of `listPostcards`: directory entries are visited in listing
 * order, directories are skipped, each other entry's name is parsed, and a
 * name that fails to parse is logged and skipped without ending the loop.
 * Reading the directory is not modelled here; its listing is an input.
 */
module Listing {
  import opened Wrappers
  import opened Payload
  import opened Subsequence

  /** One entry of `os.ReadDir`: its name and whether it is a directory. */
  datatype Entry = Entry(name: string, isDir: bool)

  /** The warning logged for a name that does not parse. */
  datatype Warning = Warning(filename: string, err: ParseError)

  /** The entry yields a payload: it is a file and its name parses. */
  predicate Kept(dirPath: string, e: Entry) {
    !e.isDir && ParseEmailPayload(dirPath, e.name).Success?
  }

  /** Reference definition: the payloads of the kept entries, in listing order. */
  function Payloads(dirPath: string, entries: seq<Entry>): seq<EmailPayload>
  {
    if |entries| == 0 then []
    else
      var last := entries[|entries| - 1];
      Payloads(dirPath, entries[..|entries| - 1])
        + (if Kept(dirPath, last) then [ParseEmailPayload(dirPath, last.name).value] else [])
  }

  /** Reference definition: one warning per file entry whose name does not parse, in order. */
  function Warnings(dirPath: string, entries: seq<Entry>): seq<Warning>
  {
    if |entries| == 0 then []
    else
      var last := entries[|entries| - 1];
      var r := ParseEmailPayload(dirPath, last.name);
      Warnings(dirPath, entries[..|entries| - 1])
        + (if !last.isDir && r.Failure? then [Warning(last.name, r.error)] else [])
  }

  /** Number of entries that are not directories. */
  function FileCount(entries: seq<Entry>): nat
  {
    if |entries| == 0 then 0
    else FileCount(entries[..|entries| - 1]) + (if entries[|entries| - 1].isDir then 0 else 1)
  }

  /** `listPostcards` after a successful `os.ReadDir`: the Go loop, appending as it goes. */
  method ListPostcards(dirPath: string, entries: seq<Entry>)
    returns (payloads: seq<EmailPayload>, warnings: seq<Warning>)
    ensures payloads == Payloads(dirPath, entries)
    ensures warnings == Warnings(dirPath, entries)
    ensures |payloads| + |warnings| == FileCount(entries)
  {
    payloads := [];
    warnings := [];
    var i := 0;
    while i < |entries|
      invariant 0 <= i <= |entries|
      invariant payloads == Payloads(dirPath, entries[..i])
      invariant warnings == Warnings(dirPath, entries[..i])
      invariant |payloads| + |warnings| == FileCount(entries[..i])
    {
      var file := entries[i];
      assert entries[..i + 1][..i] == entries[..i];
      if !file.isDir {
        var filename := file.name;
        var r := ParseEmailPayload(dirPath, filename);
        if r.Failure? {
          warnings := warnings + [Warning(filename, r.error)];
        } else {
          payloads := payloads + [r.value];
        }
      }
      i := i + 1;
    }
    assert entries[..i] == entries;
  }

  /** The listing has at most one payload per entry. */
  lemma {:induction false} PayloadsLength(dirPath: string, entries: seq<Entry>)
    ensures |Payloads(dirPath, entries)| <= |entries|
  {
    if |entries| > 0 {
      PayloadsLength(dirPath, entries[..|entries| - 1]);
    }
  }

  /** Listing a concatenation lists each part: a skipped name never disturbs what follows. */
  lemma {:induction false} PayloadsAppend(dirPath: string, a: seq<Entry>, b: seq<Entry>)
    ensures Payloads(dirPath, a + b) == Payloads(dirPath, a) + Payloads(dirPath, b)
    decreases |b|
  {
    if |b| == 0 {
      assert a + b == a;
    } else {
      var b' := b[..|b| - 1];
      assert (a + b)[..|a + b| - 1] == a + b';
      PayloadsAppend(dirPath, a, b');
    }
  }

  /** A single entry lists as its payload if kept, and warns if it is a file that does not parse. */
  lemma ListOne(dirPath: string, e: Entry)
    ensures Payloads(dirPath, [e]) == (if Kept(dirPath, e) then [ParseEmailPayload(dirPath, e.name).value] else [])
    ensures Warnings(dirPath, [e]) ==
      (if !e.isDir && ParseEmailPayload(dirPath, e.name).Failure?
       then [Warning(e.name, ParseEmailPayload(dirPath, e.name).error)] else [])
  {
    assert [e][..0] == [];
  }

  /** A directory or an unparseable name contributes nothing, wherever it stands. */
  lemma DroppedEntryIsInvisible(dirPath: string, a: seq<Entry>, e: Entry, b: seq<Entry>)
    requires !Kept(dirPath, e)
    ensures Payloads(dirPath, a + [e] + b) == Payloads(dirPath, a + b)
  {
    PayloadsAppend(dirPath, a + [e], b);
    PayloadsAppend(dirPath, a, [e]);
    PayloadsAppend(dirPath, a, b);
    assert [e][..0] == [];
  }

  /** Which entries are kept, position by position. */
  function KeptMask(dirPath: string, entries: seq<Entry>): (m: seq<bool>)
    ensures |m| == |entries|
  {
    seq(|entries|, j requires 0 <= j < |entries| => Kept(dirPath, entries[j]))
  }

  /**
   * Indices of the kept entries, in increasing order: `Origins[k]` is the
   * entry that produced the `k`-th payload.
   */
  function Origins(dirPath: string, entries: seq<Entry>): seq<nat>
  {
    Positions(KeptMask(dirPath, entries))
  }

  /** One origin per payload, and the `k`-th payload is the parse of the kept entry `Origins[k]`. */
  lemma {:induction false} OriginsMatch(dirPath: string, entries: seq<Entry>)
    ensures |Origins(dirPath, entries)| == |Payloads(dirPath, entries)|
    ensures forall k :: 0 <= k < |Origins(dirPath, entries)| ==>
      var j := Origins(dirPath, entries)[k];
      j < |entries| && Kept(dirPath, entries[j])
        && Payloads(dirPath, entries)[k] == ParseEmailPayload(dirPath, entries[j].name).value
  {
    if |entries| > 0 {
      var n := |entries| - 1;
      var init := entries[..n];
      OriginsMatch(dirPath, init);
      var mask := KeptMask(dirPath, entries);
      assert mask[..n] == KeptMask(dirPath, init);
      var idx0, ps0 := Origins(dirPath, init), Payloads(dirPath, init);
      var idx, ps := Origins(dirPath, entries), Payloads(dirPath, entries);
      var kept := Kept(dirPath, entries[n]);
      assert idx == idx0 + (if kept then [n] else []);
      assert ps == ps0 + (if kept then [ParseEmailPayload(dirPath, entries[n].name).value] else []);
      forall k | 0 <= k < |idx|
        ensures var j := idx[k];
          j < |entries| && Kept(dirPath, entries[j])
            && ps[k] == ParseEmailPayload(dirPath, entries[j].name).value
      {
        if k < |idx0| {
          assert idx[k] == idx0[k] && ps[k] == ps0[k];
          assert entries[idx0[k]] == init[idx0[k]];
        }
      }
    }
  }

  /** Origins strictly increase: payloads keep the relative order of their entries. */
  lemma OriginsIncreasing(dirPath: string, entries: seq<Entry>)
    ensures Increasing(Origins(dirPath, entries))
  {
    PositionsIncreasing(KeptMask(dirPath, entries));
  }

  /** Every kept entry is the origin of some payload: nothing parseable is lost. */
  lemma OriginsComplete(dirPath: string, entries: seq<Entry>)
    ensures forall j :: 0 <= j < |entries| && Kept(dirPath, entries[j]) ==> j in Origins(dirPath, entries)
  {
    var mask := KeptMask(dirPath, entries);
    PositionsComplete(mask);
    assert forall j :: 0 <= j < |entries| ==> mask[j] == Kept(dirPath, entries[j]);
  }

  /** Every payload is the successful parse of some file entry. */
  lemma PayloadsSound(dirPath: string, entries: seq<Entry>, p: EmailPayload)
    requires p in Payloads(dirPath, entries)
    ensures exists j :: (0 <= j < |entries| && !entries[j].isDir &&
      ParseEmailPayload(dirPath, entries[j].name) == Success(p))
  {
    OriginsMatch(dirPath, entries);
    var ps, idx := Payloads(dirPath, entries), Origins(dirPath, entries);
    var k :| 0 <= k < |ps| && ps[k] == p;
    var j := idx[k];
    assert !entries[j].isDir && ParseEmailPayload(dirPath, entries[j].name) == Success(p);
  }
}

=== FILE: orchestrator.dfy ===
/**
 * The selection loop of `main`. Each listed payload goes through the date
 * gate; a payload that is not due is logged and skipped, a due one is handed
 * to the send step. The send step (reading the attachment, building the MIME
 * message, the SMTP exchange) is an injected function whose failure is only
 * logged, so the loop always reaches the next payload.
 */
module Orchestrator {
  import opened Wrappers
  import opened Payload
  import opened DateGate
  import opened Listing

  /** Why a send attempt failed: the five error returns of `sendEmailWithAttachment`, grouped into three causes. */
  datatype SendFailure = AttachmentUnreadable | CompositionFailed | TransportRejected

  datatype SendOutcome = Sent | SendFailed(cause: SendFailure)

  /** What the loop did with one payload. */
  datatype Step =
    | NotDue(payload: EmailPayload, err: DateError)
    | Attempted(payload: EmailPayload, outcome: SendOutcome)

  /** `os.ReadDir` failing on the postcard directory. */
  datatype DirError = DirUnreadable

  /** A whole run: either it panics before any send, or it walks every listed payload. */
  datatype RunResult = Aborted(cause: DirError) | Completed(warnings: seq<Warning>, steps: seq<Step>)

  /** One step per payload, in order; a send is attempted exactly for the due payloads. */
  function Orchestrate(now: Date, payloads: seq<EmailPayload>, send: EmailPayload -> SendOutcome): (steps: seq<Step>)
    ensures |steps| == |payloads|
    ensures forall i :: 0 <= i < |steps| ==> steps[i].payload == payloads[i]
    ensures forall i :: 0 <= i < |steps| ==>
      (steps[i].Attempted? <==> now.year == DueYear(payloads[i]))
    ensures forall i :: 0 <= i < |steps| ==>
      steps[i] == (if steps[i].Attempted? then Attempted(payloads[i], send(payloads[i]))
                   else NotDue(payloads[i], NotYearsAway(payloads[i].yearsAway)))
  {
    if |payloads| == 0 then []
    else
      var payload := payloads[0];
      var d := CalculateDateDiff(now, payload);
      var step := if d.due then Attempted(payload, send(payload)) else NotDue(payload, d.err.value);
      [step] + Orchestrate(now, payloads[1..], send)
  }

  /** The payloads a send was attempted for, in order. */
  function AttemptedPayloads(steps: seq<Step>): seq<EmailPayload>
  {
    if |steps| == 0 then []
    else
      var head := if steps[0].Attempted? then [steps[0].payload] else [];
      head + AttemptedPayloads(steps[1..])
  }

  /** Reference definition: the payloads the date gate lets through, in order. */
  function DuePayloads(now: Date, payloads: seq<EmailPayload>): seq<EmailPayload>
  {
    if |payloads| == 0 then []
    else
      var head := if CalculateDateDiff(now, payloads[0]).due then [payloads[0]] else [];
      head + DuePayloads(now, payloads[1..])
  }

  /** A payload is selected iff it was listed and the gate says it is due this year. */
  lemma {:induction false} DuePayloadsMembers(now: Date, payloads: seq<EmailPayload>, p: EmailPayload)
    ensures p in DuePayloads(now, payloads) <==> p in payloads && now.year == DueYear(p)
  {
    if |payloads| > 0 {
      DuePayloadsMembers(now, payloads[1..], p);
      assert payloads == [payloads[0]] + payloads[1..];
    }
  }

  /** The send attempts are exactly the due payloads, in their listed order. */
  lemma {:induction false} AttemptsAreDuePayloads(now: Date, payloads: seq<EmailPayload>, send: EmailPayload -> SendOutcome)
    ensures AttemptedPayloads(Orchestrate(now, payloads, send)) == DuePayloads(now, payloads)
  {
    if |payloads| > 0 {
      var steps := Orchestrate(now, payloads, send);
      assert steps[1..] == Orchestrate(now, payloads[1..], send);
      AttemptsAreDuePayloads(now, payloads[1..], send);
    }
  }

  /** Which sends are attempted never depends on how earlier sends went. */
  lemma OutcomesDoNotSteerAttempts(now: Date, payloads: seq<EmailPayload>,
                                   send1: EmailPayload -> SendOutcome, send2: EmailPayload -> SendOutcome)
    ensures AttemptedPayloads(Orchestrate(now, payloads, send1))
         == AttemptedPayloads(Orchestrate(now, payloads, send2))
  {
    AttemptsAreDuePayloads(now, payloads, send1);
    AttemptsAreDuePayloads(now, payloads, send2);
  }

  /** Processing a concatenation processes each part: a failure in the first part leaves the second untouched. */
  lemma {:induction false} OrchestrateAppend(now: Date, a: seq<EmailPayload>, b: seq<EmailPayload>,
                                             send: EmailPayload -> SendOutcome)
    ensures Orchestrate(now, a + b, send) == Orchestrate(now, a, send) + Orchestrate(now, b, send)
  {
    if |a| == 0 {
      assert a + b == b;
    } else {
      assert (a + b)[1..] == a[1..] + b;
      OrchestrateAppend(now, a[1..], b, send);
    }
  }

  /**
   * `main` after settings and the working directory: list the postcard
   * directory (an unreadable directory aborts before any send), then walk
   * every listed payload.
   */
  function Run(now: Date, dirPath: string, listing: Result<seq<Entry>, DirError>,
               send: EmailPayload -> SendOutcome): (r: RunResult)
    ensures listing.Failure? <==> r.Aborted?
    ensures r.Completed? ==>
      && r.warnings == Warnings(dirPath, listing.value)
      && |r.steps| == |Payloads(dirPath, listing.value)|
  {
    match listing
    case Failure(e) => Aborted(e)
    case Success(entries) =>
      Completed(Warnings(dirPath, entries), Orchestrate(now, Payloads(dirPath, entries), send))
  }

  /** End to end: a completed run attempts exactly the due payloads among the parseable files. */
  lemma RunAttemptsDuePostcards(now: Date, dirPath: string, entries: seq<Entry>, send: EmailPayload -> SendOutcome)
    ensures var r := Run(now, dirPath, Success(entries), send);
      AttemptedPayloads(r.steps) == DuePayloads(now, Payloads(dirPath, entries))
  {
    AttemptsAreDuePayloads(now, Payloads(dirPath, entries), send);
  }
}

=== FILE: payload.dfy ===
/**
 * The email payload record and the filename parser `parseEmailPayload`.
 * A postcard file is named `<recipient>_<years>.<extension>`; the parser
 * follows the code rather than that intent: any second `_`, or a second
 * `.` after the `_`, rejects the name, and `<years>` is anything
 * `strconv.Atoi` accepts, signs included.
 */
module Payload {
  import opened Wrappers
  import opened Strings
  import opened Strconv

  const Subject: string := "Hello from Eternal Draft"
  const Body: string := "TEST BODY"

  datatype EmailPayload = EmailPayload(
    to: string,
    subject: string,
    body: string,
    attachmentPath: string,
    yearsAway: int)

  /** The two error messages of `parseEmailPayload`, each carrying the filename. */
  datatype ParseError =
    | InvalidFormat(filename: string)
    | UnparsableYears(filename: string)

  /**
   * `filename` is `addr + "_" + years + "." + ext` with no `_` in any of the
   * three parts and no `.` in `years` or `ext`: the only shape the parser's
   * two splits let through.
   */
  predicate Shaped(filename: string, addr: string, years: string, ext: string) {
    && filename == addr + "_" + years + "." + ext
    && '_' !in addr && '_' !in years && '_' !in ext
    && '.' !in years && '.' !in ext
  }

  function ParseEmailPayload(dirPath: string, filename: string): (r: Result<EmailPayload, ParseError>)
    ensures Count(filename, '_') != 1 ==> r == Failure(InvalidFormat(filename))
    ensures r.Failure? ==> r.error.filename == filename
    ensures r.Success? ==>
      && r.value.subject == Subject
      && r.value.body == Body
      && r.value.attachmentPath == dirPath + filename
      && MinInt <= r.value.yearsAway <= MaxInt
  {
    var parts := Split(filename, '_');
    if |parts| != 2 then Failure(InvalidFormat(filename))
    else
      var yearsAndFiletype := Split(parts[1], '.');
      if |yearsAndFiletype| != 2 then Failure(InvalidFormat(filename))
      else
        match Atoi(yearsAndFiletype[0])
        case Failure(_) => Failure(UnparsableYears(filename))
        case Success(years) =>
          Success(EmailPayload(parts[0], Subject, Body, dirPath + filename, years))
  }

  /** Splitting a shaped name yields its three parts. */
  lemma SplitShaped(filename: string, addr: string, years: string, ext: string)
    requires Shaped(filename, addr, years, ext)
    ensures Split(filename, '_') == [addr, years + "." + ext]
    ensures Split(years + "." + ext, '.') == [years, ext]
  {
    var rest := years + "." + ext;
    Regroup(addr, years, ext);
    SplitAtFirst(addr, '_', rest);
    SplitWithoutSeparator(rest, '_');
    SplitAtFirst(years, '.', ext);
    SplitWithoutSeparator(ext, '.');
  }

  /** The shaped name is the address, `_`, then the rest as one block. */
  lemma Regroup(addr: string, years: string, ext: string)
    ensures addr + "_" + years + "." + ext == addr + ['_'] + (years + ['.'] + ext)
    ensures years + "." + ext == years + ['.'] + ext
  {
  }

  /**
   * On a shaped name the outcome is decided by `Atoi` alone: the recipient
   * is the text before `_`, the offset is the parsed years.
   */
  lemma ParseShaped(dirPath: string, filename: string, addr: string, years: string, ext: string)
    requires Shaped(filename, addr, years, ext)
    ensures ParseEmailPayload(dirPath, filename) ==
      match Atoi(years)
      case Success(n) => Success(EmailPayload(addr, Subject, Body, dirPath + filename, n))
      case Failure(_) => Failure(UnparsableYears(filename))
  {
    SplitShaped(filename, addr, years, ext);
  }

  /** A shaped name with a readable offset parses to its address and that offset. */
  lemma ParseShapedSuccess(dirPath: string, filename: string, addr: string, years: string, ext: string, n: int)
    requires Shaped(filename, addr, years, ext)
    requires Atoi(years) == Success(n)
    ensures ParseEmailPayload(dirPath, filename)
      == Success(EmailPayload(addr, Subject, Body, dirPath + filename, n))
  {
    ParseShaped(dirPath, filename, addr, years, ext);
  }

  /** Every accepted name is shaped, and its fields come from the shape. */
  lemma ParseSuccessIsShaped(dirPath: string, filename: string)
    requires ParseEmailPayload(dirPath, filename).Success?
    ensures var p := ParseEmailPayload(dirPath, filename).value;
      exists years, ext :: Shaped(filename, p.to, years, ext) && Atoi(years) == Success(p.yearsAway)
  {
    var p := ParseEmailPayload(dirPath, filename).value;
    var parts := Split(filename, '_');
    assert |parts| == 2;
    var ye := Split(parts[1], '.');
    assert |ye| == 2;
    assert p.to == parts[0] && Atoi(ye[0]) == Success(p.yearsAway);
    ShapedFromSplits(filename, parts, ye);
  }

  /** Two two-piece splits put a name together as `address_years.ext`. */
  lemma ShapedFromSplits(filename: string, parts: seq<string>, ye: seq<string>)
    requires parts == Split(filename, '_') && |parts| == 2
    requires ye == Split(parts[1], '.') && |ye| == 2
    ensures Shaped(filename, parts[0], ye[0], ye[1])
  {
    JoinTwo(parts, '_');
    JoinTwo(ye, '.');
    Regroup(parts[0], ye[0], ye[1]);
  }

  lemma JoinTwo(pieces: seq<string>, c: char)
    requires |pieces| == 2
    ensures Join(pieces, c) == pieces[0] + [c] + pieces[1]
  {
    assert pieces[1..] == [pieces[1]];
  }

  /** A name with a `_` whose remainder does not hold exactly one `.` is rejected as malformed. */
  lemma ParseRejectsDotCount(dirPath: string, addr: string, rest: string)
    requires '_' !in addr && '_' !in rest
    requires Count(rest, '.') != 1
    ensures ParseEmailPayload(dirPath, addr + "_" + rest) == Failure(InvalidFormat(addr + "_" + rest))
  {
    var filename := addr + "_" + rest;
    assert filename == addr + ['_'] + rest;
    SplitAtFirst(addr, '_', rest);
    SplitWithoutSeparator(rest, '_');
    var parts := Split(filename, '_');
    assert parts == [addr, rest];
    assert |Split(parts[1], '.')| != 2;
    assert ParseEmailPayload(dirPath, filename) == Failure(InvalidFormat(filename));
  }

  /** An address holding `_` makes a second `_`, so the name is rejected. */
  lemma ParseRejectsUnderscoreInAddress(dirPath: string, addr: string, rest: string)
    requires '_' in addr
    ensures ParseEmailPayload(dirPath, addr + "_" + rest) == Failure(InvalidFormat(addr + "_" + rest))
  {
    assert addr + "_" + rest == addr + ("_" + rest);
    CountAppend(addr, "_" + rest, '_');
    CountAppend("_", rest, '_');
    assert Count(addr + "_" + rest, '_') >= 2;
  }

  /** An extension holding `.` (`x.tar.gz`) makes a second `.`, so the name is rejected. */
  lemma ParseRejectsDottedExtension(dirPath: string, addr: string, years: string, ext: string)
    requires '_' !in addr && '_' !in years && '_' !in ext
    requires '.' in ext
    ensures ParseEmailPayload(dirPath, addr + "_" + years + "." + ext)
      == Failure(InvalidFormat(addr + "_" + years + "." + ext))
  {
    var rest := years + "." + ext;
    assert rest == years + ("." + ext);
    CountAppend(years, "." + ext, '_');
    CountAppend(".", ext, '_');
    CountAppend(years, "." + ext, '.');
    CountAppend(".", ext, '.');
    assert addr + "_" + years + "." + ext == addr + "_" + rest;
    ParseRejectsDotCount(dirPath, addr, rest);
  }

  lemma DigitsHaveNoSeparator(s: string)
    requires AllDigits(s)
    ensures '_' !in s && '.' !in s
  {
  }

  /**
   * Round trip: a name built from an address without `_`, a rendered
   * offset and an extension without `_` or `.` parses back to that address
   * and offset.
   */
  lemma ParseRoundTrip(dirPath: string, addr: string, n: nat, ext: string)
    requires '_' !in addr && '_' !in ext && '.' !in ext
    requires n <= MaxInt
    ensures var filename := addr + "_" + Decimal(n) + "." + ext;
      ParseEmailPayload(dirPath, filename)
        == Success(EmailPayload(addr, Subject, Body, dirPath + filename, n))
  {
    var years := Decimal(n);
    DigitsHaveNoSeparator(years);
    AtoiDecimal(n);
    ParseShapedSuccess(dirPath, addr + "_" + years + "." + ext, addr, years, ext, n);
  }

  /** A signed offset is accepted: `addr_-n.ext` parses to `-n`. */
  lemma ParseAcceptsNegativeOffset(dirPath: string, addr: string, n: nat, ext: string)
    requires '_' !in addr && '_' !in ext && '.' !in ext
    requires n <= -MinInt
    ensures var filename := addr + "_" + ("-" + Decimal(n)) + "." + ext;
      ParseEmailPayload(dirPath, filename)
        == Success(EmailPayload(addr, Subject, Body, dirPath + filename, -(n as int)))
  {
    AtoiMinusDecimal(n);
    ParseSignedOffset(dirPath, addr, "-", Decimal(n), ext, -(n as int));
  }

  /** A leading `+` on the offset is accepted: `addr_+n.ext` parses to `n`. */
  lemma ParseAcceptsPlusOffset(dirPath: string, addr: string, n: nat, ext: string)
    requires '_' !in addr && '_' !in ext && '.' !in ext
    requires n <= MaxInt
    ensures var filename := addr + "_" + ("+" + Decimal(n)) + "." + ext;
      ParseEmailPayload(dirPath, filename)
        == Success(EmailPayload(addr, Subject, Body, dirPath + filename, n))
  {
    AtoiPlusDecimal(n);
    ParseSignedOffset(dirPath, addr, "+", Decimal(n), ext, n);
  }

  /**
   * Any offset `Atoi` accepts, leading zeros included, reaches the payload
   * with its decimal value: `bob_007.png` is due seven years on.
   */
  lemma ParseAcceptsDigits(dirPath: string, addr: string, sign: string, d: string, ext: string)
    requires '_' !in addr && '_' !in ext && '.' !in ext
    requires sign in {"", "+", "-"} && AllDigits(d)
    requires if sign == "-" then DigitsValue(d) <= -MinInt else DigitsValue(d) <= MaxInt
    ensures var filename := addr + "_" + (sign + d) + "." + ext;
      var v := if sign == "-" then -(DigitsValue(d) as int) else DigitsValue(d) as int;
      ParseEmailPayload(dirPath, filename)
        == Success(EmailPayload(addr, Subject, Body, dirPath + filename, v))
  {
    AtoiAcceptsDigits(sign, d);
    ParseSignedOffset(dirPath, addr, sign, d, ext,
      if sign == "-" then -(DigitsValue(d) as int) else DigitsValue(d) as int);
  }

  /** A name whose offset is an optional sign and digits parses to whatever `Atoi` makes of the offset. */
  lemma ParseSignedOffset(dirPath: string, addr: string, sign: string, digits: string, ext: string, v: int)
    requires '_' !in addr && '_' !in ext && '.' !in ext
    requires sign in {"", "+", "-"}
    requires AllDigits(digits) && Atoi(sign + digits) == Success(v)
    ensures var filename := addr + "_" + (sign + digits) + "." + ext;
      ParseEmailPayload(dirPath, filename)
        == Success(EmailPayload(addr, Subject, Body, dirPath + filename, v))
  {
    var years := sign + digits;
    DigitsHaveNoSeparator(digits);
    assert '_' !in years && '.' !in years;
    ParseShapedSuccess(dirPath, addr + "_" + years + "." + ext, addr, years, ext, v);
  }
}

=== FILE: scenarios.dfy ===
/**
 * Whole-run scenarios for a postcard directory `/srv/postcards`, stated on
 * the model and proved from the parser's round trip. Like the path `main`
 * builds, `Dir` has no trailing separator, so attachment paths come out as
 * `/srv/postcardsbob@x.com_3.png`.
 */
module Scenarios {
  import opened Wrappers
  import opened Strconv
  import opened Payload
  import opened DateGate
  import opened Listing
  import opened Orchestrator

  const Dir: string := "/srv/postcards"

  /** `addr_n.png` parses to `addr` and `n`. */
  lemma ParsePng(addr: string, n: nat, filename: string)
    requires '_' !in addr && n < 10
    requires filename == addr + "_" + [DigitChar(n)] + ".png"
    ensures ParseEmailPayload(Dir, filename)
      == Success(EmailPayload(addr, Subject, Body, Dir + filename, n))
  {
    var ext := "png";
    assert '_' !in ext && '.' !in ext;
    assert Decimal(n) == [DigitChar(n)];
    assert filename == addr + "_" + Decimal(n) + "." + ext;
    ParseRoundTrip(Dir, addr, n, ext);
  }

  /** One file `bob@x.com_3.png` in 2026: exactly one attempt, to bob, whatever the send does. */
  lemma OneDuePostcard(send: EmailPayload -> SendOutcome)
    ensures var r := Run(Date(2026, 10, 10), Dir, Success([Entry("bob@x.com_3.png", false)]), send);
      && r.Completed?
      && r.warnings == []
      && AttemptedPayloads(r.steps)
        == [EmailPayload("bob@x.com", Subject, Body, Dir + "bob@x.com_3.png", 3)]
  {
    var e := Entry("bob@x.com_3.png", false);
    var p := EmailPayload("bob@x.com", Subject, Body, Dir + "bob@x.com_3.png", 3);
    ListBob(e, p);
    AttemptBob(Date(2026, 10, 10), p, send);
  }

  lemma ListBob(e: Entry, p: EmailPayload)
    requires e == Entry("bob@x.com_3.png", false)
    requires p == EmailPayload("bob@x.com", Subject, Body, Dir + "bob@x.com_3.png", 3)
    ensures Payloads(Dir, [e]) == [p] && Warnings(Dir, [e]) == []
  {
    ParsePng("bob@x.com", 3, e.name);
    ListOne(Dir, e);
  }

  lemma AttemptBob(now: Date, p: EmailPayload, send: EmailPayload -> SendOutcome)
    requires now.year == 2023 + p.yearsAway
    ensures AttemptedPayloads(Orchestrate(now, [p], send)) == [p]
  {
    var steps := Orchestrate(now, [p], send);
    assert steps[0].Attempted?;
    assert steps[1..] == [];
  }

  /** A name with no `_` yields no payload and one warning, and the run still completes. */
  lemma BadNameIsOnlyWarned(now: Date, send: EmailPayload -> SendOutcome)
    ensures var r := Run(now, Dir, Success([Entry("bad filename.png", false)]), send);
      && r.Completed?
      && r.steps == []
      && r.warnings == [Warning("bad filename.png", InvalidFormat("bad filename.png"))]
  {
    var e := Entry("bad filename.png", false);
    assert '_' !in e.name;
    assert ParseEmailPayload(Dir, e.name) == Failure(InvalidFormat(e.name));
    ListOne(Dir, e);
  }

  /** One due and one not-due payload: one attempt, and one logged not-due step. */
  lemma OneDueOneNotSteps(now: Date, p1: EmailPayload, p2: EmailPayload, send: EmailPayload -> SendOutcome)
    requires now.year == 2023 + p1.yearsAway && now.year != 2023 + p2.yearsAway
    ensures var steps := Orchestrate(now, [p1, p2], send);
      steps == [Attempted(p1, send(p1)), NotDue(p2, NotYearsAway(p2.yearsAway))]
  {
    var steps := Orchestrate(now, [p1, p2], send);
    assert steps[0] == Attempted(p1, send(p1));
    assert steps[1] == NotDue(p2, NotYearsAway(p2.yearsAway));
  }

  /** An unreadable postcard directory aborts the run before any parse or send. */
  lemma UnreadableDirectoryAborts(now: Date, send: EmailPayload -> SendOutcome)
    ensures Run(now, Dir, Failure(DirUnreadable), send) == Aborted(DirUnreadable)
  {
  }
}

=== FILE: strconv.dfy ===
/**
 * Model of Go's `strconv.Atoi` on a 64-bit platform: an optional `+` or `-`,
 * then one or more ASCII decimal digits (base 10 admits no `_` separators),
 * and a value that fits in a signed 64-bit `int`. Anything else is an error:
 * a syntax error or a range error, whichever a left-to-right read meets first.
 * Also the decimal rendering of a natural number, its inverse.
 */
module Strconv {
  import opened Wrappers

  const MaxInt: int := 0x7fff_ffff_ffff_ffff
  const MinInt: int := -0x8000_0000_0000_0000
  const MaxUint64: int := 0xffff_ffff_ffff_ffff

  /** Why `Atoi` rejected its input (Go's `ErrSyntax` and `ErrRange`). */
  datatype NumError = ErrSyntax | ErrRange

  predicate IsDigit(ch: char) {
    '0' <= ch <= '9'
  }

  /** Decimal digits and nothing else, possibly none. */
  predicate Digits(s: string) {
    forall i :: 0 <= i < |s| ==> IsDigit(s[i])
  }

  /** One or more decimal digits and nothing else. */
  predicate AllDigits(s: string) {
    |s| > 0 && Digits(s)
  }

  function DigitValue(ch: char): (d: nat)
    requires IsDigit(ch)
    ensures d < 10
  {
    (ch as int) - ('0' as int)
  }

  function DigitChar(d: nat): (ch: char)
    requires d < 10
    ensures IsDigit(ch) && DigitValue(ch) == d
  {
    (d + '0' as int) as char
  }

  /** Value of a digit string read most significant digit first. */
  function DigitsValue(s: string): nat
    requires Digits(s)
  {
    if |s| == 0 then 0
    else DigitsValue(s[..|s| - 1]) * 10 + DigitValue(s[|s| - 1])
  }

  /** `strconv.Itoa` restricted to naturals: no sign, no leading zeros. */
  function Decimal(n: nat): (s: string)
    ensures AllDigits(s)
    ensures |s| > 1 ==> s[0] != '0'
  {
    if n < 10 then [DigitChar(n)]
    else Decimal(n / 10) + [DigitChar(n % 10)]
  }

  /** Length of the optional leading `+` or `-`. */
  function SignWidth(s: string): (w: nat)
    ensures w <= |s|
    ensures w == 1 <==> |s| > 0 && s[0] in "+-"
  {
    if |s| > 0 && (s[0] == '+' || s[0] == '-') then 1 else 0
  }

  /**
   * The digit loop of Go's `ParseUint` in base 10; the empty-input check
   * is `Atoi`'s. The loop reads one character at a time from the left and
   * stops at the first problem: a non-digit is a syntax error, and a digit
   * that takes the value read so far past the 64-bit unsigned range is a
   * range error. Written on the prefix, so the last character is the one
   * read last.
   */
  function ScanDigits(s: string): (r: Result<nat, NumError>)
    ensures r.Success? ==>
      && Digits(s)
      && r.value == DigitsValue(s)
      && r.value <= MaxUint64
  {
    if |s| == 0 then Success(0)
    else
      match ScanDigits(s[..|s| - 1]) {
        case Failure(e) => Failure(e)
        case Success(n) =>
          if !IsDigit(s[|s| - 1]) then Failure(ErrSyntax)
          else if n * 10 + DigitValue(s[|s| - 1]) > MaxUint64 then Failure(ErrRange)
          else Success(n * 10 + DigitValue(s[|s| - 1]))
      }
  }

  /**
   * `strconv.Atoi`. Inputs shorter than 19 bytes take Go's fast path, which
   * can neither overflow nor disagree with the general path below; longer
   * ones go through `ParseInt`: strip the sign, `ParseUint` the rest, then
   * check the signed range.
   */
  function Atoi(s: string): (r: Result<int, NumError>)
    ensures r.Success? ==> MinInt <= r.value <= MaxInt
    ensures |s| == 0 ==> r == Failure(ErrSyntax)
    ensures r.Success? ==> AllDigits(s) || (s[0] in "+-" && AllDigits(s[1..]))
    ensures r.Success? ==> r.value == (if s[0] == '-' then -(DigitsValue(s[SignWidth(s)..]) as int)
                                       else DigitsValue(s[SignWidth(s)..]) as int)
  {
    if |s| == 0 then Failure(ErrSyntax)
    else
      var neg := s[0] == '-';
      var digits := s[SignWidth(s)..];
      if |digits| == 0 then Failure(ErrSyntax)
      else
        match ScanDigits(digits) {
          case Failure(e) => Failure(e)
          case Success(u) =>
            if !neg && u > MaxInt then Failure(ErrRange)
            else if neg && u > -MinInt then Failure(ErrRange)
            else Success(if neg then -(u as int) else u)
        }
  }

  /** A digit string within the unsigned range scans to its value. */
  lemma {:induction false} ScanInRange(s: string)
    requires Digits(s)
    requires DigitsValue(s) <= MaxUint64
    ensures ScanDigits(s) == Success(DigitsValue(s))
  {
    if |s| > 0 {
      ScanInRange(s[..|s| - 1]);
    }
  }

  /** A digit string is never a syntax error: it scans or overflows. */
  lemma {:induction false} ScanOnlyDigits(s: string)
    requires Digits(s)
    ensures ScanDigits(s).Success? || ScanDigits(s) == Failure(ErrRange)
  {
    if |s| > 0 {
      ScanOnlyDigits(s[..|s| - 1]);
    }
  }

  /** Digits whose value already exceeds the unsigned range end the scan with a range error, whatever follows them. */
  lemma {:induction false} ScanOverflowPrefix(s: string, k: nat)
    requires k <= |s|
    requires Digits(s[..k])
    requires DigitsValue(s[..k]) > MaxUint64
    ensures ScanDigits(s) == Failure(ErrRange)
  {
    var p := s[..|s| - 1];
    if |s| > k {
      assert p[..k] == s[..k];
      ScanOverflowPrefix(p, k);
    } else {
      assert s[..k] == s;
      ScanOnlyDigits(p);
    }
  }

  /** A non-digit reached while the digits before it are in range ends the scan with a syntax error. */
  lemma {:induction false} ScanNonDigit(s: string, i: nat)
    requires i < |s| && !IsDigit(s[i])
    requires Digits(s[..i])
    requires DigitsValue(s[..i]) <= MaxUint64
    ensures ScanDigits(s) == Failure(ErrSyntax)
  {
    var p := s[..|s| - 1];
    if |s| > i + 1 {
      assert p[..i] == s[..i];
      ScanNonDigit(p, i);
    } else {
      assert p == s[..i];
      ScanInRange(p);
    }
  }

  /** Reading back a rendered natural gives the natural. */
  lemma {:induction false} DigitsValueDecimal(n: nat)
    ensures DigitsValue(Decimal(n)) == n
  {
    if n >= 10 {
      var s := Decimal(n);
      assert s[..|s| - 1] == Decimal(n / 10);
      DigitsValueDecimal(n / 10);
    }
  }

  /** Round trip: `Atoi(Itoa(n)) == n` for every natural that fits in an `int`. */
  lemma AtoiDecimal(n: nat)
    requires n <= MaxInt
    ensures Atoi(Decimal(n)) == Success(n)
  {
    DigitsValueDecimal(n);
    ScanInRange(Decimal(n));
  }

  /** A leading `+` is accepted and changes nothing. */
  lemma AtoiPlusDecimal(n: nat)
    requires n <= MaxInt
    ensures Atoi("+" + Decimal(n)) == Success(n)
  {
    assert ("+" + Decimal(n))[1..] == Decimal(n);
    DigitsValueDecimal(n);
    ScanInRange(Decimal(n));
  }

  /** A leading `-` is accepted and negates, down to the most negative `int`. */
  lemma AtoiMinusDecimal(n: nat)
    requires n <= -MinInt
    ensures Atoi("-" + Decimal(n)) == Success(-(n as int))
  {
    assert ("-" + Decimal(n))[1..] == Decimal(n);
    DigitsValueDecimal(n);
    ScanInRange(Decimal(n));
  }

  /** Values past the 64-bit range are a range error, not a wrapped value. */
  lemma AtoiOverflow(n: nat)
    requires n > MaxInt
    ensures Atoi(Decimal(n)) == Failure(ErrRange)
  {
    var s := Decimal(n);
    DigitsValueDecimal(n);
    if n <= MaxUint64 {
      ScanInRange(s);
    } else {
      assert s[..|s|] == s;
      ScanOverflowPrefix(s, |s|);
    }
  }

  /**
   * Every optional sign followed by digits in range is accepted with its
   * decimal value, leading zeros included: `"007"` reads as 7 and `"-0042"`
   * as -42.
   */
  lemma AtoiAcceptsDigits(sign: string, d: string)
    requires sign in {"", "+", "-"} && AllDigits(d)
    requires if sign == "-" then DigitsValue(d) <= -MinInt else DigitsValue(d) <= MaxInt
    ensures Atoi(sign + d) == Success(if sign == "-" then -(DigitsValue(d) as int) else DigitsValue(d) as int)
  {
    var s := sign + d;
    assert s[|sign|..] == d;
    assert SignWidth(s) == |sign| by {
      if sign == "" {
        assert s[0] == d[0];
      } else {
        assert s[0] == sign[0];
      }
    }
    ScanInRange(d);
  }

  /** A sign with no digits after it is a syntax error. */
  lemma AtoiLoneSign(s: string)
    requires s == "+" || s == "-"
    ensures Atoi(s) == Failure(ErrSyntax)
  {
    assert s[1..] == "";
  }

  /**
   * The first non-digit past the optional sign is a syntax error, provided
   * the digits before it have not already overflowed the unsigned range.
   */
  lemma AtoiNonDigit(s: string, i: nat)
    requires SignWidth(s) <= i < |s| && !IsDigit(s[i])
    requires Digits(s[SignWidth(s)..i])
    requires DigitsValue(s[SignWidth(s)..i]) <= MaxUint64
    ensures Atoi(s) == Failure(ErrSyntax)
  {
    var w := SignWidth(s);
    var digits := s[w..];
    assert digits[..i - w] == s[w..i] by {
      assert forall j :: 0 <= j < i - w ==> digits[..i - w][j] == s[w..i][j];
    }
    ScanNonDigit(digits, i - w);
  }

  /**
   * Digits past the optional sign whose value exceeds the unsigned 64-bit
   * range are a range error even when a non-digit follows them: the scan
   * stops at the overflowing digit and never reaches it.
   */
  lemma AtoiOverflowBeforeNonDigit(s: string, k: nat)
    requires SignWidth(s) + k <= |s|
    requires Digits(s[SignWidth(s)..SignWidth(s) + k])
    requires DigitsValue(s[SignWidth(s)..SignWidth(s) + k]) > MaxUint64
    ensures Atoi(s) == Failure(ErrRange)
  {
    var w := SignWidth(s);
    var digits := s[w..];
    assert digits[..k] == s[w..w + k] by {
      assert forall j :: 0 <= j < k ==> digits[..k][j] == s[w..w + k][j];
    }
    ScanOverflowPrefix(digits, k);
  }

  /**
   * A rendered natural past the unsigned 64-bit range, signed or not, is a
   * range error whatever text follows it, a letter included.
   */
  lemma AtoiOverflowThenAnything(n: nat, rest: string)
    requires n > MaxUint64
    ensures Atoi(Decimal(n) + rest) == Failure(ErrRange)
    ensures Atoi("-" + Decimal(n) + rest) == Failure(ErrRange)
  {
    var d := Decimal(n);
    DigitsValueDecimal(n);
    var s := d + rest;
    assert SignWidth(s) == 0 by { assert s[0] == d[0]; }
    assert s[0..|d|] == d;
    AtoiOverflowBeforeNonDigit(s, |d|);
    var t := "-" + d + rest;
    assert SignWidth(t) == 1;
    assert t[1..1 + |d|] == d;
    AtoiOverflowBeforeNonDigit(t, |d|);
  }
}

=== FILE: strings.dfy ===
/**
 * Character-level model of Go's `strings.Split` with a one-character
 * separator. Go strings are byte strings, but the separators used by the
 * program (`_` and `.`) are ASCII, so splitting on the byte and splitting on
 * the character give the same pieces.
 */
module Strings {

  /** Number of occurrences of `c` in `s` (Go's `strings.Count`). */
  function Count(s: string, c: char): (n: nat)
    ensures n <= |s|
    ensures n == 0 <==> c !in s
  {
    if |s| == 0 then 0
    else (if s[0] == c then 1 else 0) + Count(s[1..], c)
  }

  lemma {:induction false} CountAppend(a: string, b: string, c: char)
    ensures Count(a + b, c) == Count(a, c) + Count(b, c)
  {
    if |a| == 0 {
      assert a + b == b;
    } else {
      assert (a + b)[1..] == a[1..] + b;
      CountAppend(a[1..], b, c);
    }
  }

  /** Glue `pieces` back together with `c` between consecutive pieces. */
  function Join(pieces: seq<string>, c: char): string
  {
    if |pieces| == 0 then ""
    else if |pieces| == 1 then pieces[0]
    else pieces[0] + [c] + Join(pieces[1..], c)
  }

  /**
   * `strings.Split(s, sep)` for a one-character `sep`: the maximal pieces of
   * `s` between occurrences of `sep`. There is always one more piece than
   * there are separators, so the empty string splits into `[""]`.
   */
  function Split(s: string, c: char): (pieces: seq<string>)
    ensures |pieces| == Count(s, c) + 1
    ensures forall i :: 0 <= i < |pieces| ==> c !in pieces[i]
    ensures Join(pieces, c) == s
  {
    if |s| == 0 then [""]
    else
      var rest := Split(s[1..], c);
      if s[0] == c then [""] + rest
      else [[s[0]] + rest[0]] + rest[1..]
  }

  /** A string without the separator is a single piece. */
  lemma {:induction false} SplitWithoutSeparator(s: string, c: char)
    requires c !in s
    ensures Split(s, c) == [s]
  {
    var p := Split(s, c);
    assert |p| == 1;
    assert Join(p, c) == p[0];
  }

  /** Splitting stops at the first separator: everything before it is the first piece. */
  lemma {:induction false} SplitAtFirst(a: string, c: char, b: string)
    requires c !in a
    ensures Split(a + [c] + b, c) == [a] + Split(b, c)
    decreases |a|
  {
    if |a| == 0 {
      assert a + [c] + b == [c] + b;
      assert ([c] + b)[1..] == b;
    } else {
      var s := a + [c] + b;
      assert s[0] == a[0];
      assert s[1..] == a[1..] + [c] + b;
      SplitAtFirst(a[1..], c, b);
      assert [a[0]] + a[1..] == a;
    }
  }

  /** Splitting undoes joining, as long as no piece holds the separator. */
  lemma {:induction false} SplitJoin(pieces: seq<string>, c: char)
    requires |pieces| > 0
    requires forall i :: 0 <= i < |pieces| ==> c !in pieces[i]
    ensures Split(Join(pieces, c), c) == pieces
    decreases |pieces|
  {
    if |pieces| == 1 {
      SplitWithoutSeparator(pieces[0], c);
    } else {
      SplitJoin(pieces[1..], c);
      SplitAtFirst(pieces[0], c, Join(pieces[1..], c));
      assert [pieces[0]] + pieces[1..] == pieces;
    }
  }
}

=== FILE: subsequence.dfy ===
/**
 * Positions selected by a mask, in increasing order: the index bookkeeping
 * behind "keep the survivors, in order".
 */
module Subsequence {

  predicate Increasing(s: seq<nat>) {
    forall k, l :: 0 <= k < l < |s| ==> s[k] < s[l]
  }

  /** The indices `j` with `mask[j]`, smallest first. */
  function Positions(mask: seq<bool>): (idx: seq<nat>)
    ensures forall k :: 0 <= k < |idx| ==> idx[k] < |mask| && mask[idx[k]]
  {
    if |mask| == 0 then []
    else
      var n := |mask| - 1;
      Positions(mask[..n]) + (if mask[n] then [n] else [])
  }

  lemma {:induction false} PositionsIncreasing(mask: seq<bool>)
    ensures Increasing(Positions(mask))
  {
    if |mask| > 0 {
      var n := |mask| - 1;
      PositionsIncreasing(mask[..n]);
      var idx0 := Positions(mask[..n]);
      var idx := Positions(mask);
      assert idx == idx0 + (if mask[n] then [n] else []);
      forall k, l | 0 <= k < l < |idx|
        ensures idx[k] < idx[l]
      {
        if l < |idx0| {
          assert idx[k] == idx0[k] && idx[l] == idx0[l];
        } else {
          assert idx[l] == n;
          assert idx[k] == idx0[k];
        }
      }
    }
  }

  lemma {:induction false} PositionsComplete(mask: seq<bool>)
    ensures forall j :: 0 <= j < |mask| && mask[j] ==> j in Positions(mask)
  {
    if |mask| > 0 {
      var n := |mask| - 1;
      PositionsComplete(mask[..n]);
      assert forall j :: 0 <= j < n ==> mask[..n][j] == mask[j];
    }
  }
}

=== FILE: wrappers.dfy ===
/** Failure-carrying values used in place of Go's `(value, error)` pairs. */
module Wrappers {

  datatype Option<+T> = None | Some(value: T)

  datatype Result<+R, +E> = Success(value: R) | Failure(error: E)
}
